=== FILE: README.md ===
# Mukulima Bora: farmer ledger and demo wallet service, modelled in Dafny

This project models the two stateful parts of the Mukulima Bora agricultural
marketplace backend and proves properties of them.

- **Farmer registry and wallet ledger** (`mukulima_bora_full.py`, module `Ledger`).
  The database is a value with one sequence of rows per table: farmers,
  wallets, transactions, produce and trade listings. Each route is a pure
  transition that returns the HTTP reply and the next database.
  - `register` refuses a taken username first, then a taken email. Otherwise it
    adds one farmer and one wallet with balance 0.
  - `pay` is the guarded debit. When the balance covers the amount, it debits
    the wallet and logs one `"Wallet Payment"` row. Otherwise it replies 402.
    The sign of the amount is never checked.
  - `wallet_balance`, `list_produce`, `list_trade` and the count part of
    `farm_analytics` are reads. They filter a table by farmer id, which is
    module `Rows`.
- **Demo service** (`mukulima_bora_secure.py`, modules `RateLimit` and `SecureDemo`).
  - `validate_input` reports the first absent or null field.
  - `register` validates first, then applies the 8-character length rule.
  - `create_wallet` works on the in-memory username→balance map.
  - The `rate_limiter` decorator has a single cell, `last_called`, shared by
    every call of the wallet route.

The invariants proved for the ledger are:
- the i-th wallet row belongs to the i-th farmer, so every farmer has exactly one wallet;
- usernames and emails are unique;
- no balance is negative;
- every balance equals minus the sum of that farmer's logged payments.

The last one holds because balances open at 0 and only `pay` changes them.
Every database reachable from the empty one satisfies these invariants.

Modelling choices:
- Balances and amounts are Python floats in the source. Here they are
  integers: float rounding, overflow, infinities and NaN are not modelled
  (see "## Left out").
- The clock is a real number of seconds, a parameter in place of `time.time()`.
- Row ids are autoincrement keys. Rows are never deleted, so the n-th row has id n.
- Password hashing is an uninterpreted function parameter.
- In the demo service, a request body is a JSON object over `Value`. JSON
  numbers are integers there.
- Python's `len` is defined on strings, lists and objects. On anything else it
  raises `TypeError`, which the route turns into a 500.
- Hashing a password that is not a string raises, which also gives a 500.

The code has one transaction kind, no sign check on `amount`, and no top-up,
credit, idempotency-key or locking logic; the model follows it.

## Model

| member | source | states |
|---|---|---|
| Rows.Select | mukulima_bora_full.py:158 | a per-farmer query returns exactly the rows whose farmer id is the caller's, never more rows than the table has |
| Rows.SelectAppend | mukulima_bora_full.py:158 | the query keeps store order: querying a concatenation is the concatenation of the queries |
| Rows.SelectCount | mukulima_bora_full.py:265-268 | the number of rows a query returns equals the number of positions in the table owned by that farmer |
| Rows.Scan | mukulima_bora_full.py:183 | a one-pass scan that keeps owned rows computes exactly the query result |
| Ledger.FirstWallet | mukulima_bora_full.py:118 | the `.first()` lookup returns the lowest index of a wallet owned by the farmer, and returns nothing exactly when the farmer has no wallet row |
| Ledger.WalletBalance | mukulima_bora_full.py:116-119 | the balance route succeeds exactly when the farmer has a wallet row, and reports that wallet's balance; otherwise it is the 500 error |
| Ledger.Register | mukulima_bora_full.py:83-102 | 201 exactly when both username and email are fresh; a taken username gives "Username exists" whatever the email; "Email exists" only for a fresh username; on refusal nothing changes; on success one farmer with that username and email and one wallet are appended and no other table changes |
| Ledger.Pay | mukulima_bora_full.py:123-136 | 200 exactly when the wallet exists and its balance is at least the amount (missing amount = 0); then the balance drops by exactly the amount and stays non-negative, exactly one "Wallet Payment" row with that farmer and the unsigned amount is appended, and no other farmer's wallet row changes; 402 exactly when the balance is short and 500 when there is no wallet, both leaving everything unchanged |
| Ledger.ListProduce | mukulima_bora_full.py:156-159 | the produce listing holds exactly the caller's produce rows, as many as the caller owns |
| Ledger.ListProduceSnoc | mukulima_bora_full.py:158 | the listing keeps store order: an empty table lists nothing, and a new produce row appears at the end of its owner's listing and in no one else's |
| Ledger.ListProduceAppend | mukulima_bora_full.py:158 | the listing of a table made of two parts is the listing of the first part followed by that of the second |
| Ledger.ListTrade | mukulima_bora_full.py:181-191 | the trade listing holds exactly the caller's trade rows, as many as the caller owns |
| Ledger.ListTradeSnoc | mukulima_bora_full.py:183 | the trade listing keeps store order: an empty table lists nothing, and a new trade row appears at the end of its owner's listing and in no one else's |
| Ledger.ListTradeAppend | mukulima_bora_full.py:183 | the trade listing of a table made of two parts is the listing of the first part followed by that of the second |
| Ledger.FarmAnalytics | mukulima_bora_full.py:264-271 | `total_products` is the number of produce rows owned by the farmer and `products` is the produce listing, in store order |
| Ledger.WalletOfFarmer | mukulima_bora_full.py:99-101 | in a well-formed database farmer n's wallet is the n-th wallet row, and an unregistered id has no wallet |
| Ledger.ExactlyOneWallet | mukulima_bora_full.py:89-101 | every registered farmer owns exactly one wallet row, and an unregistered id owns none |
| Ledger.RegisterOpensEmptyWallet | mukulima_bora_full.py:99-101 | after a successful registration the new farmer's balance reads 0 and the farmer owns exactly one wallet |
| Ledger.RegisterKeepsWellFormed | mukulima_bora_full.py:85-101 | registration keeps farmer/wallet pairing, unique usernames and emails, and the payment log's farmer ids registered |
| Ledger.RegisterKeepsValid | mukulima_bora_full.py:85-101 | registration also keeps balances non-negative and reconciled with the payment log |
| Ledger.PaySuccessShape | mukulima_bora_full.py:127-133 | in a well-formed database a successful payment is the debit of the payer's own wallet row plus one logged row |
| Ledger.DebitKeepsReconciled | mukulima_bora_full.py:128-133 | debiting a wallet and logging the payment keeps every balance equal to minus that farmer's logged total |
| Ledger.PayKeepsValid | mukulima_bora_full.py:123-136 | payment, successful or not, keeps the database well formed, solvent and reconciled |
| Ledger.RunKeepsValid | mukulima_bora_full.py:83-136 | any sequence of registrations and payments from a valid database ends in a valid database |
| Ledger.ReachableValid | mukulima_bora_full.py:83-136 | every database reachable from the empty one is valid |
| Ledger.BalanceReplaysLog | mukulima_bora_full.py:116-119 | for a registered farmer, the balance route reports minus the sum of the farmer's logged payments: the balance is re-derivable from the log |
| Ledger.NetPaymentsNotPositive | mukulima_bora_full.py:128-133 | with no top-up operation, the net amount any farmer has paid is never positive |
| Ledger.NegativePaymentCredits | mukulima_bora_full.py:125-129 | with no sign check, a negative payment by a registered farmer always succeeds and raises the balance |
| Ledger.PayIsolated | mukulima_bora_full.py:127-133 | a payment leaves every other farmer's balance reading unchanged |
| RateLimit.Admitted | mukulima_bora_secure.py:23-32 | admitted calls are a subset of the calls, each admitted at least `RATE_LIMIT_SECONDS` after the previous admission; every call that comes at least that long after the cell's time at that point is admitted; the cell ends at the last admitted time |
| RateLimit.AdmittedSnoc | mukulima_bora_secure.py:26-31 | a further call is admitted, and moves the cell to its time, exactly when it comes at least `RATE_LIMIT_SECONDS` after the cell's time; a refused call adds nothing and leaves the cell |
| SecureDemo.ValidateInput | mukulima_bora_secure.py:35-38 | validation passes exactly when every required field is present and non-null; otherwise it names a missing or null field all of whose predecessors are present |
| SecureDemo.Register | mukulima_bora_secure.py:41-60 | 201 exactly for a present username and a string password of length at least 8; a missing username is reported before anything else, then a missing password; "Password is too short" exactly when both are present and the password's `len` is below 8; 500 exactly when the password is not a string and is not refused by length |
| SecureDemo.CreateWallet | mukulima_bora_secure.py:64-74 | an existing username gives 400 and the map unchanged; a new one gives 201, adds exactly that key with balance 0 and keeps every other entry |
| SecureDemo.Step | mukulima_bora_secure.py:26-31 | registration changes neither the wallet map nor the limiter; a wallet call within the limit of the last admitted call gives 429 and changes nothing; otherwise the limiter records the call's time and `create_wallet` decides reply and map |
| SecureDemo.ServeKeepsZero | mukulima_bora_secure.py:69 | every balance in the map stays 0 over any run of requests |
| SecureDemo.ReachableZero | mukulima_bora_secure.py:20 | from the empty map, every reachable wallet map holds only zero balances |
| SecureDemo.ServeKeepsKeys | mukulima_bora_secure.py:64-71 | wallets are never removed or changed once created |
| SecureDemo.ServeLimiter | mukulima_bora_secure.py:23-31 | the single cell after a run is the replay of every wallet call's time, whoever the call was for; registrations never touch it |
| SecureDemo.ServeAdmits | mukulima_bora_secure.py:23-32 | the wallet calls of a run that are not refused with 429 are exactly the limiter's admissions over all wallet calls, whoever they are for |
| SecureDemo.ServeSpaced | mukulima_bora_secure.py:23-32 | the wallet calls of a run that are not refused with 429 are spaced at least `RATE_LIMIT_SECONDS` apart, the first one that long after the starting cell |
| SecureDemo.RefusedCallStillThrottles | mukulima_bora_secure.py:28-31 | a call admitted by the limiter but refused by `create_wallet` (existing user) still advances the cell, so the next call within the limit gets 429 |
| SecureDemo.LimiterSharedAcrossUsers | mukulima_bora_secure.py:23-31 | after a wallet is created for one user, a call for a different user within the limit is refused with 429 and creates nothing |

## Left out

- HTTP and the framework are not modelled: Flask routing, JSON parsing and serialisation, CORS and logging. Replies are modelled as status and message only.
- Ledger.ListProduce: returns whole rows instead of the JSON projection of id, name, quantity and price. Dropping fields is serialisation.
- Ledger.FarmAnalytics: leaves out `total_value`, a floating-point sum of quantity times price. It also returns whole rows instead of the name/quantity/price projection.
- Ledger.Register: the request is typed, so missing and null fields are not modelled. In the source the keys are read lazily. A missing `username` raises `KeyError` at once (line 85) and gives a 500. A missing `email` raises only once the username is fresh (line 87), and a missing `password` only once both checks pass (line 96); before that the refusals "Username exists" and "Email exists" still come first. A null `username` or `email` passes the lookups and fails the not-null constraint at the commit on line 98, and a null `password` makes the hash on line 96 raise; each gives a 500 with nothing stored. `farm_size` is not stored either, and neither is its `float()` conversion at line 94: a null or non-numeric `farm_size` raises there and gives a 500 with nothing stored.
- Ledger.Pay: amounts and balances are unbounded integers, so the ledger lemmas (including Ledger.NegativePaymentCredits) hold for finite amounts within float range only. Three float behaviours of the source are not modelled. An integer amount beyond float range makes `float()` at line 125 raise `OverflowError`, a 500. A negative infinite amount (JSON `-1e400`, or two payments of `-1e308`) passes the guard and makes the balance infinite. A further payment can then make the balance NaN, which the database stores as NULL, after which the comparison on line 128 raises and every payment gives a 500. A NaN amount gives 402 whatever the balance.
- Ledger.Pay: `amount` is an optional integer, where absence means 0. Three 500 paths with nothing changed are not modelled: a JSON null `amount` (`float(None)` raises `TypeError` at line 125), a non-numeric string `amount`, and a body that is not a JSON object (`data.get` raises).
- SQLAlchemy sessions, commits and migrations are not modelled. Each route is modelled as one atomic transition. The source takes no locks and its server may interleave requests, so interleavings are not modelled. The ledger invariants and the limiter's spacing are proved for requests served one at a time.
- JWT issuance and checking are not modelled, and neither is `login`. The authenticated farmer id is a parameter.
- Password hashing and checking are library calls. Hashing is an uninterpreted function.
- `add_produce` and `create_trade` are not modelled: they are plain inserts. The produce and trade tables are given as the database contents.
- The soil-sensor and carbon endpoints are not modelled. They are plain inserts and reads with float defaults.
- The weather proxy is not modelled, because it is network I/O. The AI advice route is not modelled, because it is a placeholder string.
- Timestamps (`datetime.utcnow`, `created_at`) are not modelled. They are opaque clock readings.
- SecureDemo.Register: the body is always a JSON object; non-object bodies are not modelled. In the source an array or string body without the key gives 400 "Missing or null field: username"; a missing, null, boolean or numeric body, or an array or string that contains the key, raises `TypeError` and gives a 500.
- SecureDemo.Register: strings are sequences of Unicode scalar values, so JSON strings holding lone surrogates (such as `"\ud800"`) are not modelled. In the demo route such a password makes the hash raise `UnicodeEncodeError`, a `ValueError`, which gives 400 with the codec's message. In the full app's `register`, such a username, email or password raises at the query or the hash and gives a 500.
- SecureDemo.CreateWallet: the generic exception handler (500) is not modelled. The map operations cannot raise for a string key.
- RateLimit.Admitted: exact reals stand in for float clock readings. Float rounding near the one-second limit is not modelled.

=== FILE: ledger.dfy ===
/**
 * The farmer registry and wallet ledger of the full marketplace backend
 * (`mukulima_bora_full.py`): registration of farmers, one wallet per farmer,
 * the guarded wallet payment with its transaction log, the balance query and
 * the per-farmer reads over the produce and trade-listing stores.
 *
 * The database is a value: each table is a sequence of rows in insertion
 * order, and every route is a pure transition returning the reply and the
 * next database. Row ids are autoincrement keys; rows are never deleted, so
 * the id of the n-th row of a table is n.
 */
module Ledger {
  import opened Wrappers
  import Rows

  datatype Farmer = Farmer(id: int, username: string, email: string,
                           passwordHash: string, phone: string, location: string)

  datatype Wallet = Wallet(id: int, farmerId: int, balance: int)

  datatype Transaction = Transaction(id: int, farmerId: int, amount: int, kind: string)

  datatype Produce = Produce(id: int, farmerId: int, name: string, quantity: int, price: int)

  datatype TradeListing = TradeListing(id: int, farmerId: int, tradeType: string,
                                       productName: string, quantity: int,
                                       pricePerUnit: int, destinationCountry: string,
                                       status: string)

  /** The database: one sequence of rows per table. */
  datatype Registry = Registry(farmers: seq<Farmer>, wallets: seq<Wallet>,
                               transactions: seq<Transaction>,
                               produce: seq<Produce>, trades: seq<TradeListing>)

  /** An HTTP status with the `msg` of the JSON reply. */
  datatype Reply = Reply(status: int, msg: string)

  /** The reply of a route together with the database after it. */
  datatype Outcome = Outcome(reply: Reply, next: Registry)

  /** The body of a registration request. */
  datatype RegisterRequest = RegisterRequest(username: string, email: string, password: string,
                                             phone: string, location: string)

  /** A state-changing request: registration, or a payment by the authenticated farmer. */
  datatype Op = RegisterOp(req: RegisterRequest) | PayOp(farmerId: int, amount: Option<int>)

  /** The only transaction kind the backend ever writes. */
  const WALLET_PAYMENT: string := "Wallet Payment"

  /** The reply Flask produces for an uncaught exception in a route. */
  const SERVER_ERROR := Reply(500, "Internal Server Error")

  /** The database before any request. */
  const Empty := Registry([], [], [], [], [])

  function WalletOwner(w: Wallet): int { w.farmerId }
  function TxOwner(t: Transaction): int { t.farmerId }
  function ProduceOwner(p: Produce): int { p.farmerId }
  function TradeOwner(t: TradeListing): int { t.farmerId }

  predicate UsernameTaken(farmers: seq<Farmer>, username: string)
  {
    exists i :: 0 <= i < |farmers| && farmers[i].username == username
  }

  predicate EmailTaken(farmers: seq<Farmer>, email: string)
  {
    exists i :: 0 <= i < |farmers| && farmers[i].email == email
  }

  // ---------------------------------------------------------------- lookups

  /** The index of the first wallet row of farmer `fid` (`Wallet.query.filter_by(farmer_id=fid).first()`). */
  function FirstWallet(wallets: seq<Wallet>, fid: int): (r: Option<int>)
    ensures r.Some? ==> 0 <= r.value < |wallets| && wallets[r.value].farmerId == fid
    ensures r.Some? ==> forall j :: 0 <= j < r.value ==> wallets[j].farmerId != fid
    ensures r.None? <==> forall j :: 0 <= j < |wallets| ==> wallets[j].farmerId != fid
  {
    if wallets == [] then None
    else if wallets[0].farmerId == fid then Some(0)
    else
      match FirstWallet(wallets[1..], fid)
      case None => None
      case Some(k) => Some(k + 1)
  }

  /**
   * The balance route. `None` stands for the 500 reply the route produces
   * when the farmer has no wallet row (the attribute access on a missing row raises).
   */
  function WalletBalance(s: Registry, fid: int): (r: Option<int>)
    ensures r.Some? <==> exists j :: 0 <= j < |s.wallets| && s.wallets[j].farmerId == fid
    ensures r.Some? ==> exists j :: 0 <= j < |s.wallets| && s.wallets[j].farmerId == fid
                                    && s.wallets[j].balance == r.value
  {
    match FirstWallet(s.wallets, fid)
    case None => None
    case Some(k) => Some(s.wallets[k].balance)
  }

  // ---------------------------------------------------------------- routes

  /**
   * Registration: a taken username is refused first, then a taken email;
   * otherwise one farmer row and one wallet row with balance 0 are added.
   * `hash` is the password-hashing library call, left uninterpreted.
   */
  function Register(s: Registry, req: RegisterRequest, hash: string -> string): (o: Outcome)
    ensures o.reply.status == 201 <==> !UsernameTaken(s.farmers, req.username) && !EmailTaken(s.farmers, req.email)
    ensures UsernameTaken(s.farmers, req.username) ==> o.reply == Reply(400, "Username exists")
    ensures !UsernameTaken(s.farmers, req.username) && EmailTaken(s.farmers, req.email)
            ==> o.reply == Reply(400, "Email exists")
    ensures o.reply.status != 201 ==> o.next == s
    ensures o.reply.status == 201 ==>
              && |o.next.farmers| == |s.farmers| + 1
              && o.next.farmers[..|s.farmers|] == s.farmers
              && o.next.farmers[|s.farmers|].username == req.username
              && o.next.farmers[|s.farmers|].email == req.email
              && |o.next.wallets| == |s.wallets| + 1
              && o.next.wallets[..|s.wallets|] == s.wallets
              && o.next.transactions == s.transactions
              && o.next.produce == s.produce && o.next.trades == s.trades
  {
    if UsernameTaken(s.farmers, req.username) then
      Outcome(Reply(400, "Username exists"), s)
    else if EmailTaken(s.farmers, req.email) then
      Outcome(Reply(400, "Email exists"), s)
    else
      var farmer := Farmer(|s.farmers| + 1, req.username, req.email, hash(req.password),
                           req.phone, req.location);
      var wallet := Wallet(|s.wallets| + 1, farmer.id, 0);
      Outcome(Reply(201, "Farmer registered successfully"),
              s.(farmers := s.farmers + [farmer], wallets := s.wallets + [wallet]))
  }

  /**
   * Payment from the authenticated farmer's wallet. A missing `amount` is 0;
   * the amount's sign is never checked. If the balance covers the amount the
   * balance drops by it and one "Wallet Payment" row is logged; otherwise 402.
   */
  function Pay(s: Registry, fid: int, amount: Option<int>): (o: Outcome)
    ensures WalletBalance(s, fid).None? ==> o == Outcome(SERVER_ERROR, s)
    ensures o.reply.status == 200 <==>
              WalletBalance(s, fid).Some? && WalletBalance(s, fid).value >= amount.GetOr(0)
    ensures o.reply.status == 402 <==>
              WalletBalance(s, fid).Some? && WalletBalance(s, fid).value < amount.GetOr(0)
    ensures o.reply.status != 200 ==> o.next == s
    ensures o.reply.status == 200 ==>
              && WalletBalance(o.next, fid) == Some(WalletBalance(s, fid).value - amount.GetOr(0))
              && WalletBalance(o.next, fid).value >= 0
              && o.next.transactions
                 == s.transactions + [Transaction(|s.transactions| + 1, fid, amount.GetOr(0), WALLET_PAYMENT)]
              && |o.next.wallets| == |s.wallets|
              && (forall j :: 0 <= j < |s.wallets| && s.wallets[j].farmerId != fid ==>
                    o.next.wallets[j] == s.wallets[j])
              && o.next.farmers == s.farmers
              && o.next.produce == s.produce && o.next.trades == s.trades
  {
    var amt := amount.GetOr(0);
    match FirstWallet(s.wallets, fid)
    case None => Outcome(SERVER_ERROR, s)
    case Some(k) =>
      var w := s.wallets[k];
      if w.balance >= amt then
        var wallets' := s.wallets[k := w.(balance := w.balance - amt)];
        var tx := Transaction(|s.transactions| + 1, fid, amt, WALLET_PAYMENT);
        FirstWalletSameOwners(s.wallets, wallets');
        Outcome(Reply(200, "Paid from wallet"),
                s.(wallets := wallets', transactions := s.transactions + [tx]))
      else
        Outcome(Reply(402, "Insufficient funds"), s)
  }

  /** The farmer's produce listings, in store order. */
  function ListProduce(s: Registry, fid: int): (r: seq<Produce>)
    ensures forall p :: p in r <==> p in s.produce && p.farmerId == fid
    ensures |r| == |Rows.Positions(s.produce, ProduceOwner, fid)|
  {
    Rows.SelectCount(s.produce, ProduceOwner, fid);
    Rows.Select(s.produce, ProduceOwner, fid)
  }

  /** The farmer's import/export listings, in store order. */
  function ListTrade(s: Registry, fid: int): (r: seq<TradeListing>)
    ensures forall t :: t in r <==> t in s.trades && t.farmerId == fid
    ensures |r| == |Rows.Positions(s.trades, TradeOwner, fid)|
  {
    Rows.SelectCount(s.trades, TradeOwner, fid);
    Rows.Select(s.trades, TradeOwner, fid)
  }

  /** The count and product list of the analytics route (the value total is left out). */
  datatype Analytics = Analytics(totalProducts: int, products: seq<Produce>)

  function FarmAnalytics(s: Registry, fid: int): (a: Analytics)
    ensures a.totalProducts == |Rows.Positions(s.produce, ProduceOwner, fid)|
    ensures forall p :: p in a.products <==> p in s.produce && p.farmerId == fid
    ensures a.products == ListProduce(s, fid)
  {
    var produce := ListProduce(s, fid);
    Analytics(|produce|, produce)
  }

  /**
   * The produce listing keeps store order: an empty store lists nothing, and
   * a row appended to the store is appended to its owner's listing only.
   */
  lemma ListProduceSnoc(s: Registry, p: Produce, fid: int)
    ensures ListProduce(s.(produce := []), fid) == []
    ensures ListProduce(s.(produce := s.produce + [p]), fid)
            == ListProduce(s, fid) + (if p.farmerId == fid then [p] else [])
  {
    Rows.SelectAppend(s.produce, [p], ProduceOwner, fid);
    Rows.SelectSingle(p, ProduceOwner, fid);
  }

  /** Listing a store split in two lists the first part, then the second. */
  lemma ListProduceAppend(s: Registry, a: seq<Produce>, b: seq<Produce>, fid: int)
    ensures ListProduce(s.(produce := a + b), fid)
            == ListProduce(s.(produce := a), fid) + ListProduce(s.(produce := b), fid)
  {
    Rows.SelectAppend(a, b, ProduceOwner, fid);
  }

  /**
   * The trade listing keeps store order: an empty store lists nothing, and
   * a row appended to the store is appended to its owner's listing only.
   */
  lemma ListTradeSnoc(s: Registry, t: TradeListing, fid: int)
    ensures ListTrade(s.(trades := []), fid) == []
    ensures ListTrade(s.(trades := s.trades + [t]), fid)
            == ListTrade(s, fid) + (if t.farmerId == fid then [t] else [])
  {
    Rows.SelectAppend(s.trades, [t], TradeOwner, fid);
    Rows.SelectSingle(t, TradeOwner, fid);
  }

  /** Listing a trade store split in two lists the first part, then the second. */
  lemma ListTradeAppend(s: Registry, a: seq<TradeListing>, b: seq<TradeListing>, fid: int)
    ensures ListTrade(s.(trades := a + b), fid)
            == ListTrade(s.(trades := a), fid) + ListTrade(s.(trades := b), fid)
  {
    Rows.SelectAppend(a, b, TradeOwner, fid);
  }

  function Apply(s: Registry, op: Op, hash: string -> string): Registry
  {
    match op
    case RegisterOp(req) => Register(s, req, hash).next
    case PayOp(fid, amount) => Pay(s, fid, amount).next
  }

  function Run(s: Registry, ops: seq<Op>, hash: string -> string): Registry
    decreases |ops|
  {
    if ops == [] then s else Run(Apply(s, ops[0], hash), ops[1..], hash)
  }

  // ---------------------------------------------------------------- invariants

  /** The sum of the amounts of a list of transactions. */
  function Total(txs: seq<Transaction>): int
  {
    if txs == [] then 0 else txs[0].amount + Total(txs[1..])
  }

  /** The net amount farmer `fid` has paid, replayed from the transaction log. */
  function Paid(txs: seq<Transaction>, fid: int): int
  {
    Total(Rows.Select(txs, TxOwner, fid))
  }

  /**
   * The shape the routes keep: farmer and wallet rows are added in pairs, so
   * the i-th wallet belongs to the i-th farmer; usernames and emails are
   * unique; every logged payment belongs to a registered farmer.
   */
  ghost predicate WellFormed(s: Registry)
  {
    && |s.wallets| == |s.farmers|
    && (forall i :: 0 <= i < |s.farmers| ==> s.farmers[i].id == i + 1)
    && (forall i :: 0 <= i < |s.wallets| ==> s.wallets[i].id == i + 1 && s.wallets[i].farmerId == i + 1)
    && (forall i, j :: 0 <= i < j < |s.farmers| ==>
          s.farmers[i].username != s.farmers[j].username && s.farmers[i].email != s.farmers[j].email)
    && (forall k :: 0 <= k < |s.transactions| ==>
          && s.transactions[k].id == k + 1
          && 1 <= s.transactions[k].farmerId <= |s.farmers|
          && s.transactions[k].kind == WALLET_PAYMENT)
  }

  /** No balance is negative. */
  ghost predicate Solvent(s: Registry)
  {
    forall i :: 0 <= i < |s.wallets| ==> s.wallets[i].balance >= 0
  }

  /** Every balance is what replaying the log from an opening balance of 0 gives. */
  ghost predicate Reconciled(s: Registry)
  {
    forall i :: 0 <= i < |s.wallets| ==> s.wallets[i].balance == -Paid(s.transactions, s.wallets[i].farmerId)
  }

  ghost predicate Valid(s: Registry)
  {
    WellFormed(s) && Solvent(s) && Reconciled(s)
  }

  // ---------------------------------------------------------------- lemmas

  /** Two wallet tables with the same owner in every row have the same first wallet for everyone. */
  lemma FirstWalletSameOwners(a: seq<Wallet>, b: seq<Wallet>)
    requires |a| == |b|
    requires forall j :: 0 <= j < |a| ==> a[j].farmerId == b[j].farmerId
    ensures forall g :: FirstWallet(a, g) == FirstWallet(b, g)
  {
  }

  lemma {:induction false} TotalAppend(a: seq<Transaction>, b: seq<Transaction>)
    ensures Total(a + b) == Total(a) + Total(b)
  {
    if a == [] {
      assert a + b == b;
    } else {
      assert (a + b)[1..] == a[1..] + b;
      TotalAppend(a[1..], b);
    }
  }

  /** Logging one payment changes the payer's replayed total by its amount and no one else's. */
  lemma PaidAppend(txs: seq<Transaction>, t: Transaction, g: int)
    ensures Paid(txs + [t], g) == Paid(txs, g) + (if t.farmerId == g then t.amount else 0)
  {
    Rows.SelectAppend(txs, [t], TxOwner, g);
    Rows.SelectSingle(t, TxOwner, g);
    TotalAppend(Rows.Select(txs, TxOwner, g), Rows.Select([t], TxOwner, g));
    assert Total([t]) == t.amount + Total([]);
  }

  /** In a well-formed database the wallet of farmer `fid` is the `fid`-th row. */
  lemma WalletOfFarmer(s: Registry, fid: int)
    requires WellFormed(s)
    ensures 1 <= fid <= |s.farmers| ==> FirstWallet(s.wallets, fid) == Some(fid - 1)
    ensures !(1 <= fid <= |s.farmers|) ==> FirstWallet(s.wallets, fid) == None
  {
    if 1 <= fid <= |s.farmers| {
      assert s.wallets[fid - 1].farmerId == fid;
    }
  }

  /** Every registered farmer has exactly one wallet row; anyone else has none. */
  lemma ExactlyOneWallet(s: Registry, fid: int)
    requires WellFormed(s)
    ensures 1 <= fid <= |s.farmers| ==> |Rows.Select(s.wallets, WalletOwner, fid)| == 1
    ensures !(1 <= fid <= |s.farmers|) ==> Rows.Select(s.wallets, WalletOwner, fid) == []
  {
    Rows.SelectCount(s.wallets, WalletOwner, fid);
    if 1 <= fid <= |s.farmers| {
      assert Rows.Positions(s.wallets, WalletOwner, fid) == {fid - 1};
    } else {
      Rows.SelectNone(s.wallets, WalletOwner, fid);
    }
  }

  /** The balance route agrees with a replay of the farmer's payments from 0. */
  lemma BalanceReplaysLog(s: Registry, fid: int)
    requires Valid(s)
    requires 1 <= fid <= |s.farmers|
    ensures WalletBalance(s, fid) == Some(-Paid(s.transactions, fid))
  {
    WalletOfFarmer(s, fid);
    assert WalletBalance(s, fid) == Some(s.wallets[fid - 1].balance);
    ReconciledAt(s, fid - 1);
  }

  lemma ReconciledAt(s: Registry, i: int)
    requires WellFormed(s) && Reconciled(s) && 0 <= i < |s.wallets|
    ensures s.wallets[i].balance == -Paid(s.transactions, i + 1)
  {
  }

  /** With no top-up anywhere, what a farmer has paid in total is never positive. */
  lemma NetPaymentsNotPositive(s: Registry, fid: int)
    requires Valid(s)
    ensures Paid(s.transactions, fid) <= 0
  {
    if 1 <= fid <= |s.farmers| {
      assert s.wallets[fid - 1].farmerId == fid;
    } else {
      Rows.SelectNone(s.transactions, TxOwner, fid);
    }
  }

  /** A successful registration opens a wallet with balance 0 for the new farmer id. */
  lemma RegisterOpensEmptyWallet(s: Registry, req: RegisterRequest, hash: string -> string)
    requires WellFormed(s)
    requires Register(s, req, hash).reply.status == 201
    ensures WalletBalance(Register(s, req, hash).next, |s.farmers| + 1) == Some(0)
    ensures WellFormed(Register(s, req, hash).next)
    ensures |Rows.Select(Register(s, req, hash).next.wallets, WalletOwner, |s.farmers| + 1)| == 1
  {
    var t := Register(s, req, hash).next;
    RegisterKeepsWellFormed(s, req, hash);
    WalletOfFarmer(t, |s.farmers| + 1);
    ExactlyOneWallet(t, |s.farmers| + 1);
  }

  lemma RegisterKeepsWellFormed(s: Registry, req: RegisterRequest, hash: string -> string)
    requires WellFormed(s)
    ensures WellFormed(Register(s, req, hash).next)
  {
  }

  /** Registration keeps the database well formed, solvent and reconciled. */
  lemma RegisterKeepsValid(s: Registry, req: RegisterRequest, hash: string -> string)
    requires Valid(s)
    ensures Valid(Register(s, req, hash).next)
  {
    RegisterKeepsWellFormed(s, req, hash);
    var t := Register(s, req, hash).next;
    if t != s {
      var n := |s.farmers|;
      Rows.SelectNone(s.transactions, TxOwner, n + 1);
      assert Paid(s.transactions, n + 1) == 0;
      assert t.wallets[n].farmerId == n + 1 && t.wallets[n].balance == 0;
    }
  }

  /** The database after farmer `fid` (the `fid`-th row) pays `amt` successfully. */
  ghost function Debited(s: Registry, fid: int, amt: int): Registry
    requires 1 <= fid <= |s.wallets|
  {
    var w := s.wallets[fid - 1];
    s.(wallets := s.wallets[fid - 1 := w.(balance := w.balance - amt)],
       transactions := s.transactions + [Transaction(|s.transactions| + 1, fid, amt, WALLET_PAYMENT)])
  }

  /** In a well-formed database a successful payment is exactly that debit. */
  lemma PaySuccessShape(s: Registry, fid: int, amount: Option<int>)
    requires WellFormed(s)
    requires Pay(s, fid, amount).reply.status == 200
    ensures 1 <= fid <= |s.farmers|
    ensures s.wallets[fid - 1].balance >= amount.GetOr(0)
    ensures Pay(s, fid, amount).next == Debited(s, fid, amount.GetOr(0))
  {
  }

  lemma DebitKeepsWellFormed(s: Registry, fid: int, amt: int)
    requires WellFormed(s) && 1 <= fid <= |s.farmers|
    ensures WellFormed(Debited(s, fid, amt))
  {
  }

  lemma DebitKeepsReconciled(s: Registry, fid: int, amt: int)
    requires WellFormed(s) && Reconciled(s) && 1 <= fid <= |s.farmers|
    ensures Reconciled(Debited(s, fid, amt))
  {
    var t := Debited(s, fid, amt);
    var tx := Transaction(|s.transactions| + 1, fid, amt, WALLET_PAYMENT);
    assert t.transactions == s.transactions + [tx];
    forall i | 0 <= i < |t.wallets|
      ensures t.wallets[i].balance == -Paid(t.transactions, t.wallets[i].farmerId)
    {
      PaidAppend(s.transactions, tx, t.wallets[i].farmerId);
    }
  }

  /** Payment keeps the database well formed, solvent and reconciled. */
  lemma PayKeepsValid(s: Registry, fid: int, amount: Option<int>)
    requires Valid(s)
    ensures Valid(Pay(s, fid, amount).next)
  {
    if Pay(s, fid, amount).reply.status == 200 {
      PaySuccessShape(s, fid, amount);
      DebitKeepsWellFormed(s, fid, amount.GetOr(0));
      DebitKeepsReconciled(s, fid, amount.GetOr(0));
    }
  }

  /** Any sequence of registrations and payments keeps the invariants. */
  lemma {:induction false} RunKeepsValid(s: Registry, ops: seq<Op>, hash: string -> string)
    requires Valid(s)
    ensures Valid(Run(s, ops, hash))
    decreases |ops|
  {
    if ops != [] {
      match ops[0] {
        case RegisterOp(req) => RegisterKeepsValid(s, req, hash);
        case PayOp(fid, amount) => PayKeepsValid(s, fid, amount);
      }
      RunKeepsValid(Apply(s, ops[0], hash), ops[1..], hash);
    }
  }

  /** Every database the routes can reach from the empty one satisfies the invariants. */
  lemma ReachableValid(ops: seq<Op>, hash: string -> string)
    ensures Valid(Run(Empty, ops, hash))
  {
    RunKeepsValid(Empty, ops, hash);
  }

  /**
   * No sign check: in a valid database a negative payment by a registered
   * farmer always passes the guard and raises the balance by its magnitude.
   */
  lemma NegativePaymentCredits(s: Registry, fid: int, amount: int)
    requires Valid(s)
    requires 1 <= fid <= |s.farmers|
    requires amount < 0
    ensures Pay(s, fid, Some(amount)).reply == Reply(200, "Paid from wallet")
    ensures WalletBalance(Pay(s, fid, Some(amount)).next, fid).value > WalletBalance(s, fid).value
  {
    WalletOfFarmer(s, fid);
  }

  /** A payment never changes any other farmer's balance. */
  lemma PayIsolated(s: Registry, fid: int, amount: Option<int>, other: int)
    requires other != fid
    ensures WalletBalance(Pay(s, fid, amount).next, other) == WalletBalance(s, other)
  {
  }
}

=== FILE: rows.dfy ===
/**
 * Record stores as sequences of rows, each row owned by one farmer.
 * `Select` is what a `Model.query.filter_by(farmer_id=who).all()` returns:
 * the rows of the store whose owner is `who`, in store order.
 */
module Rows {

  /** The rows of `rows` owned by `who`, in their original order. */
  function Select<T(==,!new)>(rows: seq<T>, owner: T -> int, who: int): (r: seq<T>)
    ensures |r| <= |rows|
    ensures forall x :: x in r <==> x in rows && owner(x) == who
  {
    if rows == [] then []
    else
      var rest := Select(rows[1..], owner, who);
      if owner(rows[0]) == who then [rows[0]] + rest else rest
  }

  /** The positions in `rows` of the rows owned by `who`: an independent count. */
  ghost function Positions<T>(rows: seq<T>, owner: T -> int, who: int): set<int>
  {
    set i | 0 <= i < |rows| && owner(rows[i]) == who
  }

  /** Selection distributes over concatenation: it keeps store order. */
  lemma {:induction false} SelectAppend<T(!new)>(a: seq<T>, b: seq<T>, owner: T -> int, who: int)
    ensures Select(a + b, owner, who) == Select(a, owner, who) + Select(b, owner, who)
  {
    if a == [] {
      assert a + b == b;
    } else {
      assert (a + b)[1..] == a[1..] + b;
      SelectAppend(a[1..], b, owner, who);
    }
  }

  /** The selection of a single row. */
  lemma SelectSingle<T(!new)>(x: T, owner: T -> int, who: int)
    ensures Select([x], owner, who) == if owner(x) == who then [x] else []
  {
    assert [x][1..] == [];
  }

  /** Appending a row adds its position when it is owned, and nothing otherwise. */
  lemma PositionsSnoc<T>(init: seq<T>, x: T, owner: T -> int, who: int)
    ensures Positions(init + [x], owner, who)
            == Positions(init, owner, who) + (if owner(x) == who then {|init|} else {})
  {
    var rows := init + [x];
    forall i | 0 <= i < |init| ensures rows[i] == init[i] { }
  }

  /** The selection holds exactly as many rows as there are owned positions. */
  lemma {:induction false} SelectCount<T(!new)>(rows: seq<T>, owner: T -> int, who: int)
    ensures |Select(rows, owner, who)| == |Positions(rows, owner, who)|
    decreases |rows|
  {
    if rows == [] {
      assert Positions(rows, owner, who) == {};
    } else {
      var n := |rows| - 1;
      var init, x := rows[..n], rows[n];
      assert rows == init + [x];
      SelectAppend(init, [x], owner, who);
      SelectSingle(x, owner, who);
      SelectCount(init, owner, who);
      PositionsSnoc(init, x, owner, who);
      assert n !in Positions(init, owner, who);
    }
  }

  /** When no row is owned by `who`, the selection is empty. */
  lemma SelectNone<T(!new)>(rows: seq<T>, owner: T -> int, who: int)
    requires forall k :: 0 <= k < |rows| ==> owner(rows[k]) != who
    ensures Select(rows, owner, who) == []
  {
  }

  /** The scan a query performs: one pass over the store, keeping owned rows. */
  method Scan<T(==,!new)>(rows: seq<T>, owner: T -> int, who: int) returns (r: seq<T>)
    ensures r == Select(rows, owner, who)
  {
    r := [];
    var i := 0;
    while i < |rows|
      invariant 0 <= i <= |rows|
      invariant r == Select(rows[..i], owner, who)
    {
      assert rows[..i + 1] == rows[..i] + [rows[i]];
      SelectAppend(rows[..i], [rows[i]], owner, who);
      SelectSingle(rows[i], owner, who);
      if owner(rows[i]) == who {
        r := r + [rows[i]];
      }
      i := i + 1;
    }
    assert rows[..i] == rows;
  }
}

=== FILE: secure.dfy ===
/**
 * The rate limiter of the demo service (`mukulima_bora_secure.py`): a
 * decorator holding one cell, the time of the last admitted call, shared by
 * every call of the route it wraps. Clock readings are seconds as exact reals.
 */
module RateLimit {
  import opened Wrappers

  const RATE_LIMIT_SECONDS: real := 1.0

  /** The decorator's cell `last_called`. */
  datatype Limiter = Limiter(lastCalled: real)

  /** The cell when the decorator is applied. */
  const Fresh := Limiter(0.0)

  /** A call at `now`: `None` is the 429 refusal; `Some` is the cell after recording `now`. */
  function Admit(l: Limiter, now: real): (r: Option<Limiter>)
  {
    if now - l.lastCalled < RATE_LIMIT_SECONDS then None else Some(Limiter(now))
  }

  /** Each admitted time is at least the limit after the one before it, the first after `start`. */
  ghost predicate Spaced(start: real, admitted: seq<real>)
  {
    && (|admitted| > 0 ==> admitted[0] - start >= RATE_LIMIT_SECONDS)
    && forall i :: 0 < i < |admitted| ==> admitted[i] - admitted[i - 1] >= RATE_LIMIT_SECONDS
  }

  /** The cell after calls at each of `times` in turn. */
  function Replay(l: Limiter, times: seq<real>): Limiter
    decreases |times|
  {
    if times == [] then l
    else
      match Admit(l, times[0])
      case None => Replay(l, times[1..])
      case Some(l') => Replay(l', times[1..])
  }

  /**
   * The times, among calls at each of `times` in turn, that the limiter
   * admits: every admissible call is admitted, and the admitted ones are spaced.
   */
  function Admitted(l: Limiter, times: seq<real>): (r: seq<real>)
    ensures |r| <= |times|
    ensures forall t :: t in r ==> t in times
    ensures Spaced(l.lastCalled, r)
    ensures Replay(l, times).lastCalled == if r == [] then l.lastCalled else r[|r| - 1]
    ensures forall i :: 0 <= i < |times| && times[i] - Replay(l, times[..i]).lastCalled >= RATE_LIMIT_SECONDS
                        ==> times[i] in r
    decreases |times|
  {
    if times == [] then []
    else
      var rest := times[1..];
      assert forall i :: 1 <= i <= |times| ==> times[..i][1..] == rest[..i - 1];
      match Admit(l, times[0])
      case None => Admitted(l, rest)
      case Some(l') => [times[0]] + Admitted(l', rest)
  }

  /**
   * A further call at `t` is admitted exactly when it comes at least the
   * limit after the cell's time; an admitted call moves the cell to `t`, a
   * refused one leaves it.
   */
  lemma {:induction false} AdmittedSnoc(l: Limiter, times: seq<real>, t: real)
    ensures Admitted(l, times + [t])
            == Admitted(l, times)
               + (if t - Replay(l, times).lastCalled >= RATE_LIMIT_SECONDS then [t] else [])
    ensures Replay(l, times + [t])
            == if t - Replay(l, times).lastCalled >= RATE_LIMIT_SECONDS then Limiter(t) else Replay(l, times)
    decreases |times|
  {
    if times == [] {
      assert [] + [t] == [t];
      assert [t][1..] == [];
    } else {
      assert (times + [t])[1..] == times[1..] + [t];
      match Admit(l, times[0]) {
        case None => AdmittedSnoc(l, times[1..], t);
        case Some(l') => AdmittedSnoc(l', times[1..], t);
      }
    }
  }
}

/**
 * The demo registration and wallet service (`mukulima_bora_secure.py`):
 * input validation, the password-length rule, and wallet creation over an
 * in-memory map from usernames to balances behind the rate limiter.
 */
module SecureDemo {
  import opened Wrappers
  import opened RateLimit

  const PASSWORD_MIN_LENGTH := 8

  /** A JSON value of a request body. Numbers are integers here. */
  datatype Value = Null | Bool(b: bool) | Num(n: int) | Str(s: string)
                 | Arr(items: seq<Value>) | Obj(fields: map<string, Value>)

  /** A request body that is a JSON object. */
  type Json = map<string, Value>

  /** An HTTP status with the message or error text of the JSON reply. */
  datatype Response = Response(status: int, text: string)

  const INTERNAL_ERROR := Response(500, "Internal server error")
  const TOO_MANY := Response(429, "Too many requests")

  /** A field counts as given when its key is present and its value is not null. */
  predicate Present(data: Json, field: string)
  {
    field in data && !data[field].Null?
  }

  /** `Missing(f)` is the `ValueError` naming field `f`. */
  datatype Validation = Valid | Missing(field: string)

  /** Checks the required fields in order, failing on the first absent or null one. */
  function ValidateInput(data: Json, required: seq<string>): (v: Validation)
    ensures v.Valid? <==> forall i :: 0 <= i < |required| ==> Present(data, required[i])
    ensures v.Missing? ==>
              exists k :: 0 <= k < |required| && required[k] == v.field && !Present(data, required[k])
                          && forall j :: 0 <= j < k ==> Present(data, required[j])
  {
    if required == [] then Valid
    else if !Present(data, required[0]) then Missing(required[0])
    else
      var v := ValidateInput(data, required[1..]);
      assert forall i :: 0 < i < |required| ==> required[i] == required[1..][i - 1];
      v
  }

  /** Python's `len`: defined on strings, lists and objects; anything else raises `TypeError`. */
  function PyLen(v: Value): Option<int>
  {
    match v
    case Str(s) => Some(|s|)
    case Arr(items) => Some(|items|)
    case Obj(fields) => Some(|fields|)
    case _ => None
  }

  /**
   * The registration route: validation first, then the length rule. A
   * `ValueError` becomes a 400 carrying its message; any other exception
   * (`len` of a number or boolean, hashing a password that is not a string)
   * becomes a 500.
   */
  function Register(data: Json): (r: Response)
    ensures r.status == 201 <==>
              && Present(data, "username") && "password" in data && data["password"].Str?
              && |data["password"].s| >= PASSWORD_MIN_LENGTH
    ensures !Present(data, "username") ==> r == Response(400, "Missing or null field: username")
    ensures Present(data, "username") && !Present(data, "password")
            ==> r == Response(400, "Missing or null field: password")
    ensures r == Response(400, "Password is too short") <==>
              && Present(data, "username") && Present(data, "password")
              && PyLen(data["password"]).Some? && PyLen(data["password"]).value < PASSWORD_MIN_LENGTH
    ensures r.status == 500 <==>
              && Present(data, "username") && Present(data, "password") && !data["password"].Str?
              && (PyLen(data["password"]).None? || PyLen(data["password"]).value >= PASSWORD_MIN_LENGTH)
  {
    var required := ["username", "password"];
    match ValidateInput(data, required)
    case Missing(f) => Response(400, "Missing or null field: " + f)
    case Valid =>
      assert Present(data, required[1]);
      match PyLen(data["password"])
      case None => INTERNAL_ERROR
      case Some(n) =>
        if n < PASSWORD_MIN_LENGTH then Response(400, "Password is too short")
        else if !data["password"].Str? then INTERNAL_ERROR
        else Response(201, "User registered successfully")
  }

  /** Wallet creation over the in-memory map: an existing username is refused. */
  function CreateWallet(wallets: map<string, int>, username: string): (r: (Response, map<string, int>))
    ensures username in wallets ==> r == (Response(400, "Wallet already exists"), wallets)
    ensures username !in wallets ==>
              && r.0 == Response(201, "Wallet created successfully")
              && r.1.Keys == wallets.Keys + {username}
              && r.1[username] == 0
              && forall u :: u in wallets ==> r.1[u] == wallets[u]
  {
    if username in wallets then (Response(400, "Wallet already exists"), wallets)
    else (Response(201, "Wallet created successfully"), wallets[username := 0])
  }

  /** The service state: the wallet map and the wallet route's limiter cell. */
  datatype Server = Server(wallets: map<string, int>, limiter: Limiter)

  const Start := Server(map[], Fresh)

  datatype Request = RegisterReq(data: Json) | CreateWalletReq(username: string)

  /** One request arriving at clock reading `now`. Only wallet creation is rate limited. */
  function Step(st: Server, now: real, req: Request): (r: (Response, Server))
    ensures req.RegisterReq? ==> r.1 == st
    ensures req.CreateWalletReq? && now - st.limiter.lastCalled < RATE_LIMIT_SECONDS ==> r == (TOO_MANY, st)
    ensures req.CreateWalletReq? && now - st.limiter.lastCalled >= RATE_LIMIT_SECONDS ==>
              && r.1.limiter.lastCalled == now
              && (r.0, r.1.wallets) == CreateWallet(st.wallets, req.username)
  {
    match req
    case RegisterReq(data) => (Register(data), st)
    case CreateWalletReq(username) =>
      match Admit(st.limiter, now)
      case None => (TOO_MANY, st)
      case Some(l) =>
        var (resp, wallets') := CreateWallet(st.wallets, username);
        (resp, Server(wallets', l))
  }

  /** The state after each timed request in turn. */
  function Serve(st: Server, reqs: seq<(real, Request)>): Server
    decreases |reqs|
  {
    if reqs == [] then st else Serve(Step(st, reqs[0].0, reqs[0].1).1, reqs[1..])
  }

  /** Every wallet holds 0: nothing in the service ever changes a balance. */
  ghost predicate AllZero(wallets: map<string, int>)
  {
    forall u :: u in wallets ==> wallets[u] == 0
  }

  lemma {:induction false} ServeKeepsZero(st: Server, reqs: seq<(real, Request)>)
    requires AllZero(st.wallets)
    ensures AllZero(Serve(st, reqs).wallets)
    decreases |reqs|
  {
    if reqs != [] {
      ServeKeepsZero(Step(st, reqs[0].0, reqs[0].1).1, reqs[1..]);
    }
  }

  /** Every wallet map the service can reach from its start holds only zero balances. */
  lemma ReachableZero(reqs: seq<(real, Request)>)
    ensures AllZero(Serve(Start, reqs).wallets)
  {
    ServeKeepsZero(Start, reqs);
  }

  /** The clock readings of the wallet-creation calls among `reqs`, whatever their usernames. */
  function WalletCallTimes(reqs: seq<(real, Request)>): seq<real>
    decreases |reqs|
  {
    if reqs == [] then []
    else if reqs[0].1.CreateWalletReq? then [reqs[0].0] + WalletCallTimes(reqs[1..])
    else WalletCallTimes(reqs[1..])
  }

  /**
   * One cell for all users: the limiter after a run is the limiter replayed
   * over the times of every wallet-creation call, admitted or refused by
   * `create_wallet`, whoever it was for; registrations do not touch it.
   */
  lemma {:induction false} ServeLimiter(st: Server, reqs: seq<(real, Request)>)
    ensures Serve(st, reqs).limiter == Replay(st.limiter, WalletCallTimes(reqs))
    decreases |reqs|
  {
    if reqs != [] {
      var next := Step(st, reqs[0].0, reqs[0].1).1;
      ServeLimiter(next, reqs[1..]);
      var ts := WalletCallTimes(reqs[1..]);
      if reqs[0].1.CreateWalletReq? {
        assert WalletCallTimes(reqs) == [reqs[0].0] + ts;
        assert ([reqs[0].0] + ts)[1..] == ts;
      }
    }
  }

  /** The clock readings of the wallet-creation calls in a run that were not refused with 429. */
  function ServedWalletTimes(st: Server, reqs: seq<(real, Request)>): seq<real>
    decreases |reqs|
  {
    if reqs == [] then []
    else
      var (resp, next) := Step(st, reqs[0].0, reqs[0].1);
      (if reqs[0].1.CreateWalletReq? && resp != TOO_MANY then [reqs[0].0] else [])
      + ServedWalletTimes(next, reqs[1..])
  }

  /**
   * The wallet calls of a run that get past the limiter are exactly the
   * limiter's admissions over all wallet calls, whoever they are for.
   */
  lemma {:induction false} ServeAdmits(st: Server, reqs: seq<(real, Request)>)
    ensures ServedWalletTimes(st, reqs) == Admitted(st.limiter, WalletCallTimes(reqs))
    decreases |reqs|
  {
    if reqs != [] {
      var (now, req) := reqs[0];
      var next := Step(st, now, req).1;
      ServeAdmits(next, reqs[1..]);
      var ts := WalletCallTimes(reqs[1..]);
      if req.CreateWalletReq? {
        assert WalletCallTimes(reqs) == [now] + ts;
        assert ([now] + ts)[1..] == ts;
      }
    }
  }

  /** The wallet calls of a run that get past the limiter are spaced at least `RATE_LIMIT_SECONDS` apart. */
  lemma ServeSpaced(st: Server, reqs: seq<(real, Request)>)
    ensures Spaced(st.limiter.lastCalled, ServedWalletTimes(st, reqs))
  {
    ServeAdmits(st, reqs);
  }

  /** Created keys are never removed and their balances never change. */
  lemma {:induction false} ServeKeepsKeys(st: Server, reqs: seq<(real, Request)>)
    ensures st.wallets.Keys <= Serve(st, reqs).wallets.Keys
    ensures forall u :: u in st.wallets ==> Serve(st, reqs).wallets[u] == st.wallets[u]
    decreases |reqs|
  {
    if reqs != [] {
      ServeKeepsKeys(Step(st, reqs[0].0, reqs[0].1).1, reqs[1..]);
    }
  }

  /**
   * A call the limiter admits but `create_wallet` refuses still advances the
   * limiter's clock: the next call within the limit is refused with 429.
   */
  lemma RefusedCallStillThrottles(st: Server, t1: real, t2: real, u: string, v: string)
    requires u in st.wallets
    requires t1 - st.limiter.lastCalled >= RATE_LIMIT_SECONDS
    requires t2 - t1 < RATE_LIMIT_SECONDS
    ensures Step(st, t1, CreateWalletReq(u)).0 == Response(400, "Wallet already exists")
    ensures Step(st, t1, CreateWalletReq(u)).1.wallets == st.wallets
    ensures Step(Step(st, t1, CreateWalletReq(u)).1, t2, CreateWalletReq(v)).0 == TOO_MANY
  {
  }

  /**
   * The cell is shared by all usernames: after a wallet is created for `u`, a
   * call for a different `v` within the limit is refused and `v` gets no wallet.
   */
  lemma LimiterSharedAcrossUsers(st: Server, t1: real, t2: real, u: string, v: string)
    requires u != v && v !in st.wallets
    requires t1 - st.limiter.lastCalled >= RATE_LIMIT_SECONDS
    requires t2 - t1 < RATE_LIMIT_SECONDS
    ensures var s1 := Step(st, t1, CreateWalletReq(u)).1;
            && u in s1.wallets
            && Step(s1, t2, CreateWalletReq(v)).0 == TOO_MANY
            && v !in Step(s1, t2, CreateWalletReq(v)).1.wallets
  {
  }
}

=== FILE: wrappers.dfy ===
/** The optional value used for lookups that may find nothing. */
module Wrappers {

  datatype Option<+T> = None | Some(value: T) {

    /** The wrapped value, or `default` when there is none. */
    function GetOr(default: T): T {
      match this
      case Some(v) => v
      case None => default
    }
  }
}
